=== FILE: README.md ===
# heapless_topo in Dafny

A model of `heapless_topo`, a `no_std` Rust crate that topologically sorts a
graph made only of edges, with every structure bounded by a single capacity
`EDGES`. A `Graph` holds an ordered, bounded list of `Edge { from, to }`.
Nodes exist only by occurring in an edge. `insert_edge` appends one edge or
reports `OverCapacity`. `into_topo_sorted` consumes the graph and runs Kahn's
algorithm:

- it seeds a starting set with every source that is nobody's target;
- it repeatedly emits one starting node;
- it promotes the targets whose last remaining predecessor was that node;
- it retires the node's outgoing edges through a per-iteration flag buffer.

The sort returns the order, `Cycle` when edges remain, or `OverCapacity` when
a bounded structure would overflow.

Modules (one file each):

- `Types` (`types.dfy`): `Error`, `Result`, `Edge` and the `(usize, usize)`
  conversion, plus the sources, targets and nodes of an edge sequence.
- `Seqs` (`seqs.dfy`): element sets, absence of duplicates and positions in
  node sequences.
- `Storage` (`storage.dfy`): the observable behaviour of the heapless
  containers. A set refuses a new element once it holds `cap` of them. The
  flag buffer has `cap` slots, and an order-preserving retain consumes one
  flag per edge.
- `Container` (`container.dfy`): `Graph` with `New`, `NewWithEdges` and
  `InsertEdge`.
- `Order` (`order.dfy`): what a topological order is, independent of any
  algorithm. `Sortable` means such an order exists, which is what acyclic
  means here. The module also proves that a closed walk, or a non-empty set of
  edges whose sources are all fed from inside the set, rules out any order.
- `Kahn` (`kahn.dfy`): seeding, one loop iteration (`Step`), the loop
  invariant, and the sort method `IntoTopoSorted`.
- `Examples` (`examples.dfy`): the crate's documentation example and tests,
  derived from the general contracts.

The capacity const generic `EDGES` becomes an explicit `cap: nat`. The
crate's `starting_nodes.first()` picks a node in an order that depends on the
hash set's internals. The model picks with `var n :| n in st.starting`, so
every guarantee of `IntoTopoSorted` holds whichever node each iteration
picks.

Main guarantees of `Kahn.IntoTopoSorted`:

- On `Ok(ord)`, `ord` holds each node of the graph exactly once, and the
  source of every edge comes before its target.
- On `Err(Cycle)`, no topological order exists, and the edges contain a
  closed walk.
- On `Err(OverCapacity)`, the graph has more distinct nodes than `cap`.
- So the sort succeeds exactly when the graph is acyclic and its nodes fit
  in `cap`.
- Which error comes back does not depend on the picks either. A node is
  schedulable when some sequence of distinct nodes lists it and places the
  source of every edge into a listed node earlier (`Order.Schedulable`).
  These are the nodes that no cycle leads into. When the starting set
  drains, the sort has emitted exactly the schedulable nodes; an overflow
  stops it earlier. It reports `OverCapacity` exactly when more nodes are
  schedulable than `cap`. It reports `Cycle` exactly when the graph is
  cyclic and the schedulable nodes fit.

A cyclic graph is therefore not always reported as `Cycle`. When more nodes
are schedulable (no cycle leads into them) than the capacity holds, the
output overflows before the loop finds the cycle. Nodes that a cycle leads
into do not count: they are never emitted. A self-loop `0 -> 0` beside the
edges `1 -> 2`, `3 -> 4` and `5 -> 6` at capacity 4 gives `OverCapacity`
(`Examples.SortSelfLoopBeyondCapacity`). A cycle does not need every node
to fit, though: the cycle `1 -> 2 -> 3 -> 1` beside `4 -> 5` at capacity 4
has five nodes and gives `Cycle` (`Examples.SortCycleWithTail`).

The seeding loop has an `OverCapacity` error path (src/lib.rs:97-101). The
model keeps that path and proves it unreachable for any graph that respects
its capacity (`Kahn.SeedStartingNodes`). The insert into the starting set
inside the loop (src/lib.rs:143-145) is unreachable as an error too: there
are never more ready nodes than edges (`Kahn.ReadyBound`). So within the loop
only the output push (src/lib.rs:122) can overflow
(`Kahn.OnlyOutputOverflows`).

## Model

| member | source | states |
|---|---|---|
| Types.EdgeFromPair | src/lib.rs:51-58 | converting a `(from, to)` pair to an edge keeps both components, and converting back gives the pair |
| Types.SourcesBound | src/lib.rs:89-101 | there are no more distinct sources than edges, which is why the starting set, sized like the edge list, can take every source |
| Types.NodesBound | src/lib.rs:9-11 | a graph has at most twice as many nodes as edges |
| Container.New | src/lib.rs:70-73 | a new graph has the given capacity and no edges |
| Container.NewWithEdges | src/lib.rs:75-78 | wrapping edges that fit the capacity stores exactly those edges, in the given order and with any duplicates, without validation |
| Container.InsertEdge | src/lib.rs:80-84 | insertion succeeds exactly when the graph is below capacity, and then appends the edge at the end; a duplicate is accepted; when full it reports OverCapacity and the graph is unchanged |
| Container.InsertAllAppends | src/lib.rs:80-84 | inserting a batch edge by edge succeeds exactly when the batch fits, and the batch then follows the earlier edges in insertion order; otherwise the error is OverCapacity |
| Container.PushingMatchesWrapping | src/lib.rs:18-21 | pushing edges one by one into an empty graph gives the same graph as `new_with_edges` on those edges |
| Storage.BoundedInsert | src/lib.rs:97-101 | inserting into a bounded set succeeds exactly when the value is already present or the set is below capacity, and the result is the set plus the value |
| Storage.InsertEach | src/lib.rs:97-101 | inserting values one after another succeeds exactly when the union of the set and all the values fits the capacity, and yields that union; otherwise the error is OverCapacity |
| Storage.RetirementFlags | src/lib.rs:127-133 | the flag buffer has one slot per unit of capacity; slot `i` is set exactly when edge `i` leaves the emitted node, and slots past the edges stay clear |
| Storage.RetainUnflagged | src/lib.rs:150-154 | retaining by flags requires at least one flag per edge, never grows the edge list and keeps only edges already present |
| Kahn.Unretired | src/lib.rs:150-154 | the edges kept after retiring sources in `done` are exactly the edges whose source is not in `done` |
| Kahn.Retired | src/lib.rs:150-154 | the edges removed after retiring sources in `done` are exactly those whose source is in `done`, and together with the kept ones they number as many as the edges |
| Kahn.UnretiredTwice | src/lib.rs:150-154 | retiring over two iterations keeps the same edges in the same relative order as retiring everything at once |
| Kahn.RetainIsUnretired | src/lib.rs:127-154 | retaining with the flag buffer removes exactly the edges out of the emitted node and keeps the rest in order |
| Kahn.SourceList | src/lib.rs:97-101 | the values the first seeding loop inserts are exactly the sources |
| Kahn.SeedStartingNodes | src/lib.rs:89-108 | seeding succeeds exactly when the distinct sources fit, always when the edges fit, and yields the sources that are nobody's target |
| Kahn.PromotedTargets | src/lib.rs:131-148 | a node is inserted while scanning exactly when some scanned edge leads to it from the emitted node and no edge into it comes from another node; there is at most one insertion per retired edge |
| Kahn.PromotedTargetsElems | src/lib.rs:131-146 | scanning all current edges inserts exactly the nodes the emitted node frees |
| Kahn.Step | src/lib.rs:115-154 | one iteration appends the chosen node to the output, replaces it in the starting set by the nodes it frees, and retires exactly its outgoing edges in order; it fails with OverCapacity exactly when the output is full or the new starting set would not fit; the measure starting-set size plus edge count strictly drops |
| Kahn.InitInv | src/lib.rs:89-113 | the seeded state meets the loop invariant: the starting set is exactly the set of nodes with no incoming edge |
| Kahn.PromotedAreFresh | src/lib.rs:134-146 | a freed node is a node of the graph that has not been emitted and is not the node just emitted |
| Kahn.StepReady | src/lib.rs:113-154 | after an iteration the starting set is exactly the set of unemitted nodes with no remaining incoming edge |
| Kahn.EmitKeepsOrder | src/lib.rs:118-122 | every emitted node, including the new one, comes after the sources of all its incoming edges |
| Kahn.EmitKeepsInv | src/lib.rs:115-154 | an iteration keeps the whole loop invariant: remaining edges, no duplicate output, the exact starting set, and edge order in the output |
| Kahn.StepInv | src/lib.rs:115-155 | a successful iteration keeps the invariant, and every node then in the starting set has no remaining incoming edge |
| Kahn.EmittedSchedulable | src/lib.rs:118-122 | an output that respects every edge into it is a schedule prefix, so every emitted node is schedulable |
| Kahn.ReadyExtends | src/lib.rs:118-146 | a node of the graph that is not yet emitted and that no remaining edge reaches can be appended to the output, and is schedulable |
| Kahn.NextReadySchedulable | src/lib.rs:131-154 | every node in the starting set after an iteration is schedulable |
| Kahn.ReadyBound | src/lib.rs:91-93 | the starting set never holds more nodes than there are edges, so sizing it like the edge list is an upper bound for the whole sort |
| Kahn.OnlyOutputOverflows | src/lib.rs:119-146 | under the loop invariant an iteration fails exactly when the output is full; the insert of freed nodes never overflows |
| Kahn.StepErrBound | src/lib.rs:119-146 | an iteration overflows only when more nodes are schedulable than the capacity holds, and so only when the graph has more distinct nodes than the capacity |
| Kahn.FirstUnemittedReady | src/lib.rs:113-154 | in any schedule prefix, the first node not yet emitted has all its incoming edges retired and is in the starting set |
| Kahn.FinalSchedulable | src/lib.rs:113-160 | when the starting set drains, the output holds exactly the schedulable nodes, whichever nodes were picked |
| Kahn.FinalOk | src/lib.rs:156-157 | when the starting set drains with no edge left, the output is a topological order of the input |
| Kahn.FinalCycle | src/lib.rs:156-160 | when the starting set drains with edges left, the input has no topological order and contains a closed walk |
| Kahn.StepFits | src/lib.rs:119-146 | while every node of the graph fits the capacity, an iteration never overflows |
| Kahn.SortableIffNoCycle | src/lib.rs:110-160 | a graph has a topological order exactly when it contains no closed walk, shown by running the loop with room for every node |
| Kahn.IntoTopoSorted | src/lib.rs:86-161 | `Ok` is a topological order using every node once; `Cycle` means no order exists and the edges contain a closed walk; `OverCapacity` means more nodes than capacity; success happens exactly for acyclic graphs whose nodes fit, and an acyclic graph with too many nodes gets OverCapacity; OverCapacity comes back exactly when more nodes are schedulable than the capacity, and Cycle exactly when the graph is cyclic and its schedulable nodes fit; all of this holds for every choice of starting node |
| Kahn.SortWithNodeBound | src/lib.rs:9-11 | with capacity at least twice the edge count, the sort succeeds exactly on acyclic graphs and otherwise reports Cycle |
| Order.CycleNotSortable | src/lib.rs:156-160 | a graph containing a closed walk has no topological order, so it is never sorted successfully |
| Order.PredecessorClosedNotSortable | src/lib.rs:156-160 | if a non-empty set of edges has every source fed by an edge of the same set, the graph has no topological order |
| Order.FedWithinHasCycle | src/lib.rs:156-160 | such a non-empty set of edges contains a closed walk, found by walking backwards until a node repeats |
| Order.SortableAllSchedulable | src/lib.rs:156-157 | in an acyclic graph every node is schedulable, since a topological order is a schedule prefix |
| Order.CycleNotSchedulable | src/lib.rs:156-160 | no node of a closed walk is schedulable, so the sort never emits it |
| Order.HamiltonianPathForcesOrder | src/lib.rs:170 | if the edges contain a walk through every node, each once, that walk is the only topological order |
| Examples.SampleSortable | src/lib.rs:171 | 1, 2, 3, 4, 5 is a topological order of the sample DAG, whatever the insertion order |
| Examples.SampleOrderUnique | src/lib.rs:170-171 | the sample DAG has no other topological order, whatever the insertion order |
| Examples.SortSampleReversed | src/lib.rs:168-184 | the sample DAG, inserted in reverse into capacity 32, sorts to exactly 1, 2, 3, 4, 5 |
| Examples.SortSamplePushed | src/lib.rs:186-197 | the sample DAG, pushed edge by edge into capacity 32, sorts to exactly 1, 2, 3, 4, 5 |
| Examples.InsertBeyondCapacity | src/lib.rs:199-204 | capacity 1 accepts edge 1 -> 2, refuses 2 -> 3 with OverCapacity, and keeps only the first edge |
| Examples.SortPathBeyondCapacity | src/lib.rs:206-212 | capacity 2 accepts edges 1 -> 2 and 0 -> 1, but sorting them reports OverCapacity |
| Examples.SortSampleWithCycle | src/lib.rs:214-227 | adding 5 -> 1 to the sample DAG makes the sort report Cycle |
| Examples.ShortPathOrder | src/lib.rs:11 | the path 0 -> 1 -> 2 is acyclic, has three nodes, and sorts only to 0, 1, 2 |
| Examples.SortDocumentationExample | src/lib.rs:15-24 | pushing 1 -> 2 and 0 -> 1 into capacity 8 sorts to exactly 0, 1, 2 |
| Examples.SortEmpty | src/lib.rs:156-157 | an empty graph of any capacity sorts to the empty order |
| Examples.DisjointEdgesFacts | src/lib.rs:9-11 | three disjoint edges form an acyclic graph with six nodes |
| Examples.SortDisjointEdgesAtEdgesPlusOne | src/lib.rs:9-11 | three disjoint edges in capacity four, one more than the edge count and a power of two, make the sort report OverCapacity |
| Examples.SortDisjointEdgesAtTwiceEdges | src/lib.rs:9-11 | the same three edges in capacity eight sort to an order of six nodes |
| Examples.CycleWithTailFacts | src/lib.rs:156-160 | the cycle 1 -> 2 -> 3 -> 1 beside the edge 4 -> 5 is cyclic, has five nodes, and only 4 and 5 are schedulable |
| Examples.SortCycleWithTail | src/lib.rs:115-160 | that graph in capacity four reports Cycle although its five nodes do not fit, since only the two schedulable nodes are ever emitted |
| Examples.SelfLoopFacts | src/lib.rs:119-122 | the self-loop 0 -> 0 beside three disjoint edges makes the graph cyclic, yet six of its nodes are schedulable |
| Examples.SortSelfLoopBeyondCapacity | src/lib.rs:115-160 | that graph in capacity four reports OverCapacity rather than Cycle, since the six nodes outside the loop do not fit and the fifth output push overflows before the loop is found |

## Left out

- The `no_std` switch and the `Debug`, `defmt::Format`, `Default`, `Clone` and `PartialEq` derives (src/lib.rs:1, 34-36, 43-45, 61-63). They only affect formatting, diagnostics and comparison.
- FnvIndexSet internals. The model leaves out FNV hashing and the compile-time rule that the set's capacity is a power of two greater than one. `cap` is any natural number.
- The iteration order of `first()` (src/lib.rs:118). It depends on hash values and on swap-removal, so the model replaces it with an arbitrary choice.
- heapless `Vec` mechanics. `resize_default(EDGES).unwrap()` becomes a flag sequence of length `cap`, and the iterator-driven `retain` becomes `Storage.RetainUnflagged`. The iterator never running out is the precondition that there are at least as many flags as edges.
- The early-exit scan for another incoming edge (src/lib.rs:135-141). It is modelled as the predicate `Kahn.HasOtherIncoming`, because the `break` has no observable effect.
- `usize` width and overflow. Node identifiers and lengths are unbounded naturals.
- Consumption of the graph by `into_topo_sorted`. Dafny values are immutable, so the sort takes the graph by value and returns no graph.
- Naming the cycle. The crate reports only that a cycle exists, not its nodes. The model proves that a closed walk exists on `Cycle` (`Order.FedWithinHasCycle`), but the sort does not return it.

## Findings

| source | as written | input that shows it | evidently intended | confidence | as-written member | corrected member |
|---|---|---|---|---|---|---|
| src/lib.rs:9-11 | the documentation says the pathological case needs capacity equal to the edge count plus one | the acyclic edges 0 -> 1, 2 -> 3 and 4 -> 5 with capacity 4, a legal power-of-two capacity, give OverCapacity, because the output must hold six nodes | capacity must cover the distinct node count, which can reach twice the edge count; twice the edge count always suffices for acyclic graphs | not executed | Examples.SortDisjointEdgesAtEdgesPlusOne | Kahn.SortWithNodeBound |

=== FILE: container.dfy ===
/**
 The graph container: an ordered sequence of edges bounded by a capacity
 `cap`, the one bound every structure of the sort shares. Nodes are not
 stored; inserting never checks for duplicates or cycles.
 */
module Container {
  import opened Types

  datatype Graph = Graph(cap: nat, edges: seq<Edge>)
  {
    /** The edge sequence never exceeds the capacity. */
    predicate Valid()
    {
      |edges| <= cap
    }
  }

  /** An empty graph of capacity `cap`. */
  function New(cap: nat): (g: Graph)
    ensures g.Valid() && g.cap == cap
    ensures g.edges == []
  {
    Graph(cap, [])
  }

  /** Wraps edges that already fit the capacity, without any validation. */
  function NewWithEdges(cap: nat, edges: seq<Edge>): (g: Graph)
    requires |edges| <= cap
    ensures g.Valid() && g.cap == cap
    ensures g.edges == edges
  {
    Graph(cap, edges)
  }

  /**
   Appends one edge. When the graph is full it reports OverCapacity and the
   graph comes back unchanged; a duplicate edge is accepted like any other.
   */
  function InsertEdge(g: Graph, e: Edge): (r: (Graph, Result<()>))
    requires g.Valid()
    ensures r.0.Valid() && r.0.cap == g.cap
    ensures r.1.Ok? <==> |g.edges| < g.cap
    ensures r.1.Ok? ==> r.0.edges == g.edges + [e]
    ensures r.1.Err? ==> r.1.error == OverCapacity && r.0 == g
  {
    if |g.edges| < g.cap then (Graph(g.cap, g.edges + [e]), Ok(())) else (g, Err(OverCapacity))
  }

  /** Inserts the edges of `es` in order, stopping at the first refusal. */
  function InsertAll(g: Graph, es: seq<Edge>): Result<Graph>
    requires g.Valid()
    decreases |es|
  {
    if es == [] then Ok(g)
    else
      var (g', status) := InsertEdge(g, es[0]);
      if status.Err? then Err(status.error) else InsertAll(g', es[1..])
  }

  /**
   Inserting a batch succeeds exactly when it fits, and then the batch sits
   after the earlier edges in insertion order.
   */
  lemma {:induction false} InsertAllAppends(g: Graph, es: seq<Edge>)
    requires g.Valid()
    ensures InsertAll(g, es).Ok? <==> |g.edges| + |es| <= g.cap
    ensures InsertAll(g, es).Ok? ==> InsertAll(g, es).value == Graph(g.cap, g.edges + es)
    ensures InsertAll(g, es).Err? ==> InsertAll(g, es).error == OverCapacity
    decreases |es|
  {
    if es != [] {
      var (g', status) := InsertEdge(g, es[0]);
      if status.Ok? {
        InsertAllAppends(g', es[1..]);
        assert g'.edges == g.edges + [es[0]];
        assert g.edges + [es[0]] + es[1..] == g.edges + es;
      }
    }
  }

  /** Pushing edges one by one into an empty graph builds the same graph as wrapping them. */
  lemma PushingMatchesWrapping(cap: nat, es: seq<Edge>)
    requires |es| <= cap
    ensures InsertAll(New(cap), es) == Ok(NewWithEdges(cap, es))
  {
    InsertAllAppends(New(cap), es);
    assert New(cap).edges + es == es;
  }
}

=== FILE: examples.dfy ===
/**
 The concrete scenarios of the crate's documentation and tests, derived from
 the general contracts: the sample DAG sorts to its only order whatever the
 insertion order, closing it into a cycle is reported, and capacity limits on
 insertion and on sorting are enforced.
 */
module Examples {
  import opened Types
  import opened Seqs
  import opened Order
  import opened Container
  import opened Kahn

  /** The sample DAG: its first four edges form the chain 1, 2, 3, 4, 5. */
  function SampleEdges(): seq<Edge>
  {
    [Edge(1, 2), Edge(2, 3), Edge(3, 4), Edge(4, 5), Edge(3, 5), Edge(1, 5)]
  }

  /** The chain 1, 2, 3, 4, 5 that the sample DAG's first four edges form. */
  function Chain(): seq<nat>
  {
    [1, 2, 3, 4, 5]
  }

  /** The chain lists five distinct nodes, each joined to the next by a sample edge. */
  lemma ChainFacts()
    ensures NoDup(Chain()) && Elems(Chain()) == {1, 2, 3, 4, 5} && |Elems(Chain())| == 5
    ensures forall i :: 0 <= i < |Chain()| - 1 ==> Edge(Chain()[i], Chain()[i + 1]) in SampleEdges()
  {
    var ord := Chain();
    assert NoDup(ord);
    DistinctCard(ord);
    var s := SampleEdges();
    assert s[0] == Edge(1, 2) && s[1] == Edge(2, 3) && s[2] == Edge(3, 4) && s[3] == Edge(4, 5);
  }

  /** The nodes of the sample DAG. */
  lemma SampleNodes(edges: seq<Edge>)
    requires forall e :: e in edges <==> e in SampleEdges()
    ensures Nodes(edges) == Elems(Chain())
  {
    SameEdgesSameNodes(edges, SampleEdges());
    var s := SampleEdges();
    assert s[0] == Edge(1, 2) && s[2] == Edge(3, 4) && s[3] == Edge(4, 5);
    assert Nodes(s) == {1, 2, 3, 4, 5};
    ChainFacts();
  }

  /** In the sample DAG every edge goes from a smaller to a larger node. */
  lemma SampleAscends(edges: seq<Edge>)
    requires forall e :: e in edges <==> e in SampleEdges()
    ensures forall e :: e in edges ==> Precedes(Chain(), e.from, e.to)
  {
    var ord := Chain();
    forall e | e in edges
      ensures Precedes(ord, e.from, e.to)
    {
      assert e in SampleEdges();
      assert 1 <= e.from < e.to <= 5;
      PrecedesAt(ord, e.from - 1, e.to - 1);
    }
  }

  /** 1, 2, 3, 4, 5 is a topological order of the sample DAG, in any insertion order. */
  lemma SampleSortable(edges: seq<Edge>)
    requires forall e :: e in edges <==> e in SampleEdges()
    ensures IsTopoOrder(Chain(), edges)
  {
    SampleNodes(edges);
    SampleAscends(edges);
    ChainFacts();
  }

  /** The sample DAG is acyclic and has five nodes, in any insertion order. */
  lemma SampleFits(edges: seq<Edge>)
    requires forall e :: e in edges <==> e in SampleEdges()
    ensures Sortable(edges) && |Nodes(edges)| == 5
  {
    SampleSortable(edges);
    SampleNodes(edges);
    ChainFacts();
  }

  /** The sample DAG has no other topological order, in any insertion order. */
  lemma SampleOrderUnique(edges: seq<Edge>, ord: seq<nat>)
    requires forall e :: e in edges <==> e in SampleEdges()
    requires IsTopoOrder(ord, edges)
    ensures ord == [1, 2, 3, 4, 5]
  {
    SampleNodes(edges);
    ChainFacts();
    HamiltonianPathForcesOrder(edges, Chain(), ord);
  }

  /** The sample DAG, inserted in reverse order into a graph of capacity 32, sorts to 1, 2, 3, 4, 5. */
  method SortSampleReversed() returns (r: Result<seq<nat>>)
    ensures r == Ok([1, 2, 3, 4, 5])
  {
    var edges := [Edge(1, 5), Edge(3, 5), Edge(4, 5), Edge(3, 4), Edge(2, 3), Edge(1, 2)];
    SampleFits(edges);
    r := IntoTopoSorted(NewWithEdges(32, edges));
    SampleOrderUnique(edges, r.value);
  }

  /** The sample DAG, pushed edge by edge in its own order, sorts to 1, 2, 3, 4, 5. */
  method SortSamplePushed() returns (r: Result<seq<nat>>)
    ensures r == Ok([1, 2, 3, 4, 5])
  {
    var edges := SampleEdges();
    PushingMatchesWrapping(32, edges);
    var g := InsertAll(New(32), edges).value;
    SampleFits(edges);
    r := IntoTopoSorted(g);
    SampleOrderUnique(edges, r.value);
  }

  /** Closing the sample DAG with the edge 5 -> 1 makes the sort report a cycle. */
  method SortSampleWithCycle() returns (r: Result<seq<nat>>)
    ensures r == Err(Cycle)
  {
    var edges := SampleEdges() + [Edge(5, 1)];
    var path: seq<nat> := [1, 2, 3, 4, 5, 1];
    assert forall i :: 0 <= i < |path| - 1 ==> Edge(path[i], path[i + 1]) in edges;
    CycleNotSortable(edges, path);
    NodesBound(edges);
    r := IntoTopoSorted(NewWithEdges(32, edges));
  }

  /** A graph of capacity 1 accepts the edge 1 -> 2 and refuses the next one. */
  method InsertBeyondCapacity() returns (first: Result<()>, second: Result<()>, g: Graph)
    ensures first == Ok(()) && second == Err(OverCapacity)
    ensures g.edges == [Edge(1, 2)]
  {
    var g1 := InsertEdge(New(1), EdgeFromPair((1, 2)));
    var g2 := InsertEdge(g1.0, EdgeFromPair((2, 3)));
    first, second, g := g1.1, g2.1, g2.0;
  }

  /** The two-edge path of the documentation: 1 -> 2 and 0 -> 1. */
  function ShortPathEdges(): seq<Edge>
  {
    [Edge(1, 2), Edge(0, 1)]
  }

  /** The short path is acyclic, has three nodes, and 0, 1, 2 is its only order. */
  lemma ShortPathOrder(ord: seq<nat>)
    ensures Sortable(ShortPathEdges()) && |Nodes(ShortPathEdges())| == 3
    ensures IsTopoOrder(ord, ShortPathEdges()) ==> ord == [0, 1, 2]
  {
    var edges := ShortPathEdges();
    var path: seq<nat> := [0, 1, 2];
    assert edges[0] == Edge(1, 2) && edges[1] == Edge(0, 1);
    assert Sources(edges) == {0, 1};
    assert Targets(edges) == {1, 2};
    assert Elems(path) == {0, 1, 2};
    assert NoDup(path);
    DistinctCard(path);
    PrecedesAt(path, 0, 1);
    PrecedesAt(path, 1, 2);
    assert forall e :: e in edges ==> Precedes(path, e.from, e.to);
    assert IsTopoOrder(path, edges);
    assert forall i :: 0 <= i < |path| - 1 ==> Edge(path[i], path[i + 1]) in edges;
    if IsTopoOrder(ord, edges) {
      HamiltonianPathForcesOrder(edges, path, ord);
    }
  }

  /**
   Capacity 2 holds the edges 1 -> 2 and 0 -> 1, but their three nodes do not
   fit, so the sort reports OverCapacity although the graph is acyclic.
   */
  method SortPathBeyondCapacity() returns (pushed: Result<Graph>, r: Result<seq<nat>>)
    ensures pushed.Ok?
    ensures r == Err(OverCapacity)
  {
    var edges := ShortPathEdges();
    PushingMatchesWrapping(2, edges);
    pushed := InsertAll(New(2), edges);
    ShortPathOrder([]);
    r := IntoTopoSorted(pushed.value);
  }

  /** The documentation example: 1 -> 2 and 0 -> 1 in capacity 8 sort to 0, 1, 2. */
  method SortDocumentationExample() returns (r: Result<seq<nat>>)
    ensures r == Ok([0, 1, 2])
  {
    var edges := ShortPathEdges();
    PushingMatchesWrapping(8, edges);
    var g := InsertAll(New(8), edges).value;
    ShortPathOrder([]);
    r := IntoTopoSorted(g);
    ShortPathOrder(r.value);
  }

  /** An empty graph sorts to the empty order. */
  method SortEmpty(cap: nat) returns (r: Result<seq<nat>>)
    ensures r == Ok([])
  {
    assert IsTopoOrder([], []);
    r := IntoTopoSorted(New(cap));
    DistinctCard(r.value);
  }

  /** Three edges that share no node: 0 -> 1, 2 -> 3 and 4 -> 5. */
  function DisjointEdges(): seq<Edge>
  {
    [Edge(0, 1), Edge(2, 3), Edge(4, 5)]
  }

  /** The nodes of the three disjoint edges. */
  lemma DisjointEdgesNodes()
    ensures Nodes(DisjointEdges()) == {0, 1, 2, 3, 4, 5}
  {
    var edges := DisjointEdges();
    assert edges[0] == Edge(0, 1) && edges[1] == Edge(2, 3) && edges[2] == Edge(4, 5);
    assert Sources(edges) == {0, 2, 4};
    assert Targets(edges) == {1, 3, 5};
  }

  /** The order 0, 1, 2, 3, 4, 5. */
  function CountingOrder(): seq<nat>
  {
    [0, 1, 2, 3, 4, 5]
  }

  /** The counting order lists six distinct nodes. */
  lemma CountingOrderElems()
    ensures NoDup(CountingOrder()) && Elems(CountingOrder()) == {0, 1, 2, 3, 4, 5}
    ensures |Elems(CountingOrder())| == 6
  {
    var ord := CountingOrder();
    assert NoDup(ord);
    DistinctCard(ord);
  }

  /** The counting order places the source of each disjoint edge before its target. */
  lemma CountingOrderAscends()
    ensures forall e :: e in DisjointEdges() ==> Precedes(CountingOrder(), e.from, e.to)
  {
    var ord := CountingOrder();
    PrecedesAt(ord, 0, 1);
    PrecedesAt(ord, 2, 3);
    PrecedesAt(ord, 4, 5);
    assert forall e :: e in DisjointEdges() ==> e == Edge(0, 1) || e == Edge(2, 3) || e == Edge(4, 5);
  }

  /** The three disjoint edges are acyclic and have six nodes. */
  lemma DisjointEdgesFacts()
    ensures Sortable(DisjointEdges()) && |Nodes(DisjointEdges())| == 6
  {
    DisjointEdgesNodes();
    CountingOrderElems();
    CountingOrderAscends();
    assert IsTopoOrder(CountingOrder(), DisjointEdges());
  }

  /**
   Three disjoint edges in a graph of capacity 4, one more than the edge count
   and a power of two: the graph is acyclic, yet its six nodes overflow the
   output.
   */
  method SortDisjointEdgesAtEdgesPlusOne() returns (r: Result<seq<nat>>)
    ensures r == Err(OverCapacity)
  {
    DisjointEdgesFacts();
    r := IntoTopoSorted(NewWithEdges(|DisjointEdges()| + 1, DisjointEdges()));
  }

  /** With capacity 8, at least twice the edge count, the same graph sorts. */
  method SortDisjointEdgesAtTwiceEdges() returns (r: Result<seq<nat>>)
    ensures r.Ok? && |r.value| == 6
  {
    DisjointEdgesFacts();
    r := SortWithNodeBound(NewWithEdges(8, DisjointEdges()));
    DistinctCard(r.value);
  }

  /** The cycle 1 -> 2 -> 3 -> 1 beside the separate edge 4 -> 5. */
  function CycleWithTailEdges(): seq<Edge>
  {
    [Edge(1, 2), Edge(2, 3), Edge(3, 1), Edge(4, 5)]
  }

  /** The nodes of the cycle with its tail. */
  lemma CycleWithTailNodes()
    ensures Nodes(CycleWithTailEdges()) == {1, 2, 3, 4, 5}
  {
    var edges := CycleWithTailEdges();
    assert edges[0] == Edge(1, 2) && edges[1] == Edge(2, 3) && edges[2] == Edge(3, 1) && edges[3] == Edge(4, 5);
    assert Sources(edges) == {1, 2, 3, 4};
    assert Targets(edges) == {2, 3, 1, 5};
  }

  /** The closed walk 1, 2, 3, 1 rules out any order and any schedule of its nodes. */
  lemma CycleWithTailCyclic()
    ensures !Sortable(CycleWithTailEdges())
    ensures 1 !in Schedulable(CycleWithTailEdges())
    ensures 2 !in Schedulable(CycleWithTailEdges())
    ensures 3 !in Schedulable(CycleWithTailEdges())
  {
    var edges := CycleWithTailEdges();
    var cycle: seq<nat> := [1, 2, 3, 1];
    assert IsCycle(edges, cycle);
    CycleNotSortable(edges, cycle);
    CycleNotSchedulable(edges, cycle, 0);
    CycleNotSchedulable(edges, cycle, 1);
    CycleNotSchedulable(edges, cycle, 2);
  }

  /** The tail 4, 5 is a schedule prefix. */
  lemma TailSchedulable()
    ensures 4 in Schedulable(CycleWithTailEdges()) && 5 in Schedulable(CycleWithTailEdges())
  {
    var edges := CycleWithTailEdges();
    CycleWithTailNodes();
    var ord: seq<nat> := [4, 5];
    PrecedesAt(ord, 0, 1);
    assert Elems(ord) == {4, 5};
    assert forall e :: e in edges && e.to in ord ==> e == Edge(4, 5);
    assert IsSchedulePrefix(ord, edges);
    assert 4 in ord && 5 in ord;
  }

  /** The graph is cyclic, has five nodes, and only 4 and 5 are schedulable. */
  lemma CycleWithTailFacts()
    ensures !Sortable(CycleWithTailEdges())
    ensures |Nodes(CycleWithTailEdges())| == 5
    ensures Schedulable(CycleWithTailEdges()) == {4, 5}
  {
    CycleWithTailNodes();
    CycleWithTailCyclic();
    TailSchedulable();
  }

  /**
   With capacity 4 the cycle is reported although the graph has five nodes:
   only the two nodes outside the cycle are ever emitted, and they fit.
   */
  method SortCycleWithTail() returns (r: Result<seq<nat>>)
    ensures r == Err(Cycle)
  {
    CycleWithTailFacts();
    r := IntoTopoSorted(NewWithEdges(4, CycleWithTailEdges()));
  }

  /** The self-loop 0 -> 0 beside the disjoint edges 1 -> 2, 3 -> 4 and 5 -> 6. */
  function SelfLoopEdges(): seq<Edge>
  {
    [Edge(0, 0), Edge(1, 2), Edge(3, 4), Edge(5, 6)]
  }

  /** The order 1, 2, 3, 4, 5, 6 of the nodes outside the loop. */
  function OutsideLoopOrder(): seq<nat>
  {
    [1, 2, 3, 4, 5, 6]
  }

  /** The nodes of the self-loop graph. */
  lemma SelfLoopNodes()
    ensures Nodes(SelfLoopEdges()) == {0, 1, 2, 3, 4, 5, 6}
  {
    var edges := SelfLoopEdges();
    assert edges[0] == Edge(0, 0) && edges[1] == Edge(1, 2) && edges[2] == Edge(3, 4) && edges[3] == Edge(5, 6);
    assert Sources(edges) == {0, 1, 3, 5};
    assert Targets(edges) == {0, 2, 4, 6};
  }

  /** The order outside the loop lists six distinct nodes. */
  lemma OutsideLoopElems()
    ensures NoDup(OutsideLoopOrder()) && Elems(OutsideLoopOrder()) == {1, 2, 3, 4, 5, 6}
    ensures |Elems(OutsideLoopOrder())| == 6
  {
    var ord := OutsideLoopOrder();
    assert NoDup(ord);
    DistinctCard(ord);
  }

  /** The nodes outside the loop, in counting order, form a schedule prefix of six nodes. */
  lemma OutsideLoopPrefix()
    ensures IsSchedulePrefix(OutsideLoopOrder(), SelfLoopEdges())
    ensures |Elems(OutsideLoopOrder())| == 6
  {
    var edges := SelfLoopEdges();
    var ord := OutsideLoopOrder();
    SelfLoopNodes();
    OutsideLoopElems();
    PrecedesAt(ord, 0, 1);
    PrecedesAt(ord, 2, 3);
    PrecedesAt(ord, 4, 5);
    assert forall e :: e in edges ==> e == Edge(0, 0) || e == Edge(1, 2) || e == Edge(3, 4) || e == Edge(5, 6);
    assert 0 !in ord;
  }

  /** The graph is cyclic, yet six of its nodes are schedulable. */
  lemma SelfLoopFacts()
    ensures !Sortable(SelfLoopEdges())
    ensures |Schedulable(SelfLoopEdges())| >= 6
  {
    var edges := SelfLoopEdges();
    var loop: seq<nat> := [0, 0];
    assert edges[0] == Edge(0, 0);
    assert IsCycle(edges, loop);
    CycleNotSortable(edges, loop);
    var ord := OutsideLoopOrder();
    OutsideLoopPrefix();
    forall x | x in Elems(ord)
      ensures x in Schedulable(edges)
    {
      assert x in ord;
    }
    SubsetCard(Elems(ord), Schedulable(edges));
  }

  /**
   With capacity 4 the sort overflows instead of reporting the self-loop: the
   six nodes outside the loop do not fit, so the fifth push overflows the
   output before the loop is found.
   */
  method SortSelfLoopBeyondCapacity() returns (r: Result<seq<nat>>)
    ensures r == Err(OverCapacity)
  {
    SelfLoopFacts();
    r := IntoTopoSorted(NewWithEdges(4, SelfLoopEdges()));
  }
}

=== FILE: kahn.dfy ===
/**
 The one-shot topological sort of an edge-only graph by Kahn's algorithm.
 The starting set is seeded with the sources that are nobody's target; each
 iteration emits one starting node, promotes the targets it was the last
 remaining predecessor of, and retires its outgoing edges. The sort succeeds
 when no edge remains, reports a cycle otherwise, and reports OverCapacity as
 soon as a bounded structure would overflow.
 */
module Kahn {
  import opened Types
  import opened Seqs
  import opened Storage
  import opened Order
  import opened Container

  /** The edges whose source is not in `done`, in their original relative order. */
  function Unretired(edges: seq<Edge>, done: set<nat>): (r: seq<Edge>)
    ensures forall e :: e in r <==> e in edges && e.from !in done
    ensures |r| <= |edges|
    decreases |edges|
  {
    if edges == [] then []
    else (if edges[0].from in done then [] else [edges[0]]) + Unretired(edges[1..], done)
  }

  /**
   The edges whose source is in `done`: those already retired. Together with
   the unretired ones they account for every edge.
   */
  function Retired(edges: seq<Edge>, done: set<nat>): (r: seq<Edge>)
    ensures forall e :: e in r <==> e in edges && e.from in done
    ensures |r| + |Unretired(edges, done)| == |edges|
    decreases |edges|
  {
    if edges == [] then []
    else (if edges[0].from in done then [edges[0]] else []) + Retired(edges[1..], done)
  }

  /** Retiring nothing keeps every edge, in order. */
  lemma {:induction false} UnretiredNothing(edges: seq<Edge>)
    ensures Unretired(edges, {}) == edges
    decreases |edges|
  {
    if edges != [] {
      UnretiredNothing(edges[1..]);
      assert edges == [edges[0]] + edges[1..];
    }
  }

  /** Retiring in two rounds keeps the same edges, in the same order, as retiring once. */
  lemma {:induction false} UnretiredTwice(edges: seq<Edge>, a: set<nat>, b: set<nat>)
    ensures Unretired(Unretired(edges, a), b) == Unretired(edges, a + b)
    decreases |edges|
  {
    if edges != [] {
      var h, t := edges[0], edges[1..];
      UnretiredTwice(t, a, b);
      var rest := Unretired(t, a);
      if h.from in a {
        assert Unretired(edges, a) == rest;
      } else {
        assert Unretired(edges, a) == [h] + rest;
        assert ([h] + rest)[1..] == rest;
      }
    }
  }

  /**
   Retaining the edges whose flag is unset, with the flags set exactly on the
   edges leaving `n`, retires exactly the edges leaving `n`.
   */
  lemma {:induction false} RetainIsUnretired(edges: seq<Edge>, flags: seq<bool>, n: nat)
    requires |flags| >= |edges|
    requires forall i :: 0 <= i < |edges| ==> (flags[i] <==> edges[i].from == n)
    ensures RetainUnflagged(edges, flags) == Unretired(edges, {n})
    decreases |edges|
  {
    if edges != [] {
      RetainIsUnretired(edges[1..], flags[1..], n);
    }
  }

  /** The source of every edge, in edge order: what the first seeding loop inserts. */
  function SourceList(edges: seq<Edge>): (xs: seq<nat>)
    ensures Elems(xs) == Sources(edges)
  {
    var xs := seq(|edges|, i requires 0 <= i < |edges| => edges[i].from);
    assert forall x :: x in Sources(edges) ==> x in xs by {
      forall x | x in Sources(edges) ensures x in xs {
        var e :| e in edges && e.from == x;
        var i :| 0 <= i < |edges| && edges[i] == e;
        assert xs[i] == x;
      }
    }
    xs
  }

  /**
   Seeds the starting set: every source is inserted into a set bounded by
   `cap`, then every target is removed. Since there are no more distinct
   sources than edges, a graph that fits its capacity never fails here.
   */
  function SeedStartingNodes(edges: seq<Edge>, cap: nat): (r: Result<set<nat>>)
    ensures r.Ok? <==> |Sources(edges)| <= cap
    ensures r.Ok? ==> r.value == Sources(edges) - Targets(edges)
    ensures r.Err? ==> r.error == OverCapacity
    ensures |edges| <= cap ==> r.Ok?
  {
    SourcesBound(edges);
    assert {} + Sources(edges) == Sources(edges);
    match InsertEach({}, SourceList(edges), cap)
    case Err(e) => Err(e)
    case Ok(s) => Ok(s - Targets(edges))
  }

  /** Some edge into `m` comes from a node other than `n`. */
  predicate HasOtherIncoming(edges: seq<Edge>, m: nat, n: nat)
  {
    exists e :: e in edges && e.to == m && e.from != n
  }

  /** `m` is reached from `n` and from no other node: retiring `n` frees it. */
  predicate Promoted(edges: seq<Edge>, n: nat, m: nat)
  {
    Edge(n, m) in edges && !HasOtherIncoming(edges, m, n)
  }

  /** Every node `n` frees. */
  function PromotedSet(edges: seq<Edge>, n: nat): set<nat>
  {
    set m | m in Targets(edges) && Promoted(edges, n, m)
  }

  /**
   The targets inserted into the starting set while scanning `scan` for edges
   out of `n`, in scan order, each judged against all of `edges`. There is at
   most one insertion per retired edge.
   */
  function PromotedTargets(scan: seq<Edge>, edges: seq<Edge>, n: nat): (r: seq<nat>)
    ensures forall m :: m in r <==> Edge(n, m) in scan && !HasOtherIncoming(edges, m, n)
    ensures |r| + |Unretired(scan, {n})| <= |scan|
    decreases |scan|
  {
    if scan == [] then []
    else
      var e := scan[0];
      assert scan == [e] + scan[1..];
      assert forall m :: Edge(n, m) in scan <==> Edge(n, m) == e || Edge(n, m) in scan[1..];
      (if e.from == n && !HasOtherIncoming(edges, e.to, n) then [e.to] else [])
        + PromotedTargets(scan[1..], edges, n)
  }

  /** The nodes promoted while scanning all current edges are exactly the freed ones. */
  lemma PromotedTargetsElems(edges: seq<Edge>, n: nat)
    ensures Elems(PromotedTargets(edges, edges, n)) == PromotedSet(edges, n)
  {
    forall m | m in PromotedSet(edges, n)
      ensures m in PromotedTargets(edges, edges, n)
    {
    }
    forall m | m in PromotedTargets(edges, edges, n)
      ensures m in PromotedSet(edges, n)
    {
      assert Edge(n, m) in edges;
    }
  }

  /** The working state of the sort: starting set, remaining edges, output so far. */
  datatype State = State(starting: set<nat>, edges: seq<Edge>, res: seq<nat>)

  /**
   One iteration of the main loop for the chosen starting node `n`: `n` leaves
   the starting set and is appended to the output (OverCapacity if the output
   is full), the nodes `n` frees join the starting set (OverCapacity if they
   do not fit), and the edges out of `n` are retired through the flag buffer.
   Nothing else changes, and the termination measure strictly drops.
   */
  function Step(st: State, n: nat, cap: nat): (r: Result<State>)
    requires n in st.starting && |st.starting| <= cap && |st.edges| <= cap
    ensures r.Err? ==> r.error == OverCapacity
    ensures r.Err? <==> |st.res| >= cap || |(st.starting - {n}) + PromotedSet(st.edges, n)| > cap
    ensures r.Ok? ==> r.value.res == st.res + [n]
    ensures r.Ok? ==> r.value.starting == (st.starting - {n}) + PromotedSet(st.edges, n)
    ensures r.Ok? ==> r.value.edges == Unretired(st.edges, {n})
    ensures r.Ok? ==> forall e :: e in r.value.edges <==> e in st.edges && e.from != n
    ensures r.Ok? ==> |r.value.starting| <= cap && |r.value.edges| <= cap && |r.value.res| <= cap
    ensures r.Ok? ==> |r.value.starting| + |r.value.edges| < |st.starting| + |st.edges|
  {
    if |st.res| >= cap then Err(OverCapacity)
    else
      var promoted := PromotedTargets(st.edges, st.edges, n);
      PromotedTargetsElems(st.edges, n);
      match InsertEach(st.starting - {n}, promoted, cap)
      case Err(e) => Err(e)
      case Ok(s) =>
        var flags := RetirementFlags(st.edges, n, cap);
        RetainIsUnretired(st.edges, flags, n);
        ElemsBound(promoted);
        Ok(State(s, RetainUnflagged(st.edges, flags), st.res + [n]))
  }

  /** The nodes of the graph not yet emitted that no remaining edge reaches. */
  function Ready(e0: seq<Edge>, edges: seq<Edge>, res: seq<nat>): set<nat>
  {
    set x | x in Nodes(e0) && x !in res && NoIncoming(edges, x)
  }

  /** Every emitted node comes after the sources of all its incoming edges. */
  ghost predicate EmittedAfterSources(e0: seq<Edge>, res: seq<nat>)
  {
    forall i, e :: 0 <= i < |res| && e in e0 && e.to == res[i] ==> e.from in res[..i]
  }

  /**
   The loop invariant relating the state to the input edges `e0`: the
   remaining edges are those whose source has not been emitted, the output
   has no duplicates and respects every edge into it, and the starting set
   is exactly the set of unemitted nodes with no remaining incoming edge.
   */
  ghost predicate Inv(e0: seq<Edge>, cap: nat, st: State)
  {
    && st.edges == Unretired(e0, Elems(st.res))
    && NoDup(st.res)
    && Elems(st.res) <= Nodes(e0)
    && st.starting == Ready(e0, st.edges, st.res)
    && EmittedAfterSources(e0, st.res)
    && |st.starting| <= cap && |st.res| <= cap && |e0| <= cap
  }

  /** The seeded state satisfies the invariant. */
  lemma InitInv(e0: seq<Edge>, cap: nat)
    requires |e0| <= cap
    ensures Inv(e0, cap, State(Sources(e0) - Targets(e0), e0, []))
  {
    UnretiredNothing(e0);
    assert Elems([]) == {};
    assert Ready(e0, e0, []) == Sources(e0) - Targets(e0);
    SourcesBound(e0);
  }

  /** The nodes freed by emitting `n` were neither emitted nor `n` itself. */
  lemma PromotedAreFresh(e0: seq<Edge>, cap: nat, st: State, n: nat, m: nat)
    requires Inv(e0, cap, st) && n in st.starting
    requires Promoted(st.edges, n, m)
    ensures m in Nodes(e0) && m !in st.res && m != n
  {
    var e := Edge(n, m);
    assert e in e0;
    assert m in Targets(e0);
    assert NoIncoming(st.edges, n);
    forall i | 0 <= i < |st.res|
      ensures st.res[i] != m
    {
      assert e in e0 && e.to == m;
    }
  }

  /**
   After emitting `n`, the starting set holds exactly the unemitted nodes with
   no remaining incoming edge: the old ones other than `n`, and those `n` freed.
   */
  lemma StepReady(e0: seq<Edge>, cap: nat, st: State, n: nat)
    requires Inv(e0, cap, st) && n in st.starting
    ensures (st.starting - {n}) + PromotedSet(st.edges, n)
         == Ready(e0, Unretired(st.edges, {n}), st.res + [n])
  {
    var edges' := Unretired(st.edges, {n});
    var res' := st.res + [n];
    var lhs := (st.starting - {n}) + PromotedSet(st.edges, n);
    var rhs := Ready(e0, edges', res');
    forall x | x in lhs
      ensures x in rhs
    {
      if x in PromotedSet(st.edges, n) {
        PromotedAreFresh(e0, cap, st, n, x);
      }
    }
    forall x | x in rhs
      ensures x in lhs
    {
      if !NoIncoming(st.edges, x) {
        var e :| e in st.edges && e.to == x;
        assert e.from == n;
        assert x in Targets(st.edges);
      }
    }
  }

  /** Appending a node with no remaining incoming edge keeps every edge into the output respected. */
  lemma EmitKeepsOrder(e0: seq<Edge>, cap: nat, st: State, n: nat)
    requires Inv(e0, cap, st) && n in st.starting
    ensures EmittedAfterSources(e0, st.res + [n])
  {
    var res' := st.res + [n];
    assert NoIncoming(st.edges, n);
    forall i, e | 0 <= i < |res'| && e in e0 && e.to == res'[i]
      ensures e.from in res'[..i]
    {
      if i < |st.res| {
        assert res'[..i] == st.res[..i];
      } else {
        assert res'[..i] == st.res;
        assert e !in st.edges;
      }
    }
  }

  /** The state after emitting `n` satisfies the invariant whenever it fits the capacity. */
  lemma EmitKeepsInv(e0: seq<Edge>, cap: nat, st: State, n: nat, next: State)
    requires Inv(e0, cap, st) && n in st.starting
    requires next.res == st.res + [n]
    requires next.edges == Unretired(st.edges, {n})
    requires next.starting == (st.starting - {n}) + PromotedSet(st.edges, n)
    requires |next.starting| <= cap && |next.res| <= cap
    ensures Inv(e0, cap, next)
  {
    StepReady(e0, cap, st, n);
    EmitKeepsOrder(e0, cap, st, n);
    UnretiredTwice(e0, Elems(st.res), {n});
    assert Elems(next.res) == Elems(st.res) + {n};
    assert next.edges == Unretired(e0, Elems(next.res));
    assert NoDup(next.res);
  }

  /**
   An iteration that succeeds keeps the invariant; in particular every node of
   the new starting set has no remaining incoming edge.
   */
  lemma StepInv(e0: seq<Edge>, cap: nat, st: State, n: nat)
    requires Inv(e0, cap, st) && n in st.starting
    requires Step(st, n, cap).Ok?
    ensures Inv(e0, cap, Step(st, n, cap).value)
    ensures forall x :: x in Step(st, n, cap).value.starting ==> NoIncoming(Step(st, n, cap).value.edges, x)
  {
    EmitKeepsInv(e0, cap, st, n, Step(st, n, cap).value);
  }

  /** An output that respects every edge into it is a schedule prefix, so its nodes are schedulable. */
  lemma EmittedSchedulable(e0: seq<Edge>, res: seq<nat>)
    requires NoDup(res) && Elems(res) <= Nodes(e0) && EmittedAfterSources(e0, res)
    ensures IsSchedulePrefix(res, e0)
    ensures Elems(res) <= Schedulable(e0)
  {
    forall e | e in e0 && e.to in res
      ensures Precedes(res, e.from, e.to)
    {
      var i := IndexOf(res, e.to);
      assert e.from in res[..i];
      var j :| 0 <= j < i && res[..i][j] == e.from;
      assert res[j] == e.from && res[i] == e.to;
    }
    forall x | x in Elems(res)
      ensures x in Schedulable(e0)
    {
      assert x in res;
    }
  }

  /**
   Appending an unemitted node of the graph that no unretired edge reaches
   keeps the output a schedule prefix, so that node is schedulable too.
   */
  lemma ReadyExtends(e0: seq<Edge>, res: seq<nat>, x: nat)
    requires NoDup(res) && Elems(res) <= Nodes(e0) && EmittedAfterSources(e0, res)
    requires x in Nodes(e0) && x !in res && NoIncoming(Unretired(e0, Elems(res)), x)
    ensures NoDup(res + [x]) && EmittedAfterSources(e0, res + [x])
    ensures Elems(res) + {x} <= Schedulable(e0)
  {
    var res' := res + [x];
    forall i, e | 0 <= i < |res'| && e in e0 && e.to == res'[i]
      ensures e.from in res'[..i]
    {
      if i < |res| {
        assert res'[..i] == res[..i];
      } else {
        assert res'[..i] == res;
        assert e !in Unretired(e0, Elems(res));
      }
    }
    assert Elems(res') == Elems(res) + {x};
    EmittedSchedulable(e0, res');
  }

  /** The nodes ready after emitting `n` are all schedulable. */
  lemma NextReadySchedulable(e0: seq<Edge>, cap: nat, st: State, n: nat)
    requires Inv(e0, cap, st) && n in st.starting
    ensures Ready(e0, Unretired(st.edges, {n}), st.res + [n]) <= Schedulable(e0)
  {
    var res' := st.res + [n];
    ReadyExtends(e0, st.res, n);
    UnretiredTwice(e0, Elems(st.res), {n});
    assert Elems(res') == Elems(st.res) + {n};
    assert Unretired(st.edges, {n}) == Unretired(e0, Elems(res'));
    forall x | x in Ready(e0, Unretired(st.edges, {n}), res')
      ensures x in Schedulable(e0)
    {
      ReadyExtends(e0, res', x);
    }
  }

  /**
   An iteration fails only when more nodes are schedulable than the capacity
   holds, and so only when the graph has more nodes than the capacity.
   */
  lemma StepErrBound(e0: seq<Edge>, cap: nat, st: State, n: nat)
    requires Inv(e0, cap, st) && n in st.starting
    requires Step(st, n, cap).Err?
    ensures |Schedulable(e0)| > cap
    ensures |Nodes(e0)| > cap
  {
    SubsetCard(Schedulable(e0), Nodes(e0));
    if |st.res| >= cap {
      ReadyExtends(e0, st.res, n);
      DistinctCard(st.res);
      SubsetCard(Elems(st.res) + {n}, Schedulable(e0));
    } else {
      StepReady(e0, cap, st, n);
      NextReadySchedulable(e0, cap, st, n);
      SubsetCard(Ready(e0, Unretired(st.edges, {n}), st.res + [n]), Schedulable(e0));
    }
  }

  /**
   In a schedule prefix, the first node not yet emitted has every incoming
   edge retired, so it is in the starting set.
   */
  lemma FirstUnemittedReady(e0: seq<Edge>, cap: nat, st: State, ord: seq<nat>, k: nat)
    requires Inv(e0, cap, st) && IsSchedulePrefix(ord, e0)
    requires k < |ord| && ord[k] !in st.res
    requires forall j :: 0 <= j < k ==> ord[j] in st.res
    ensures ord[k] in st.starting
  {
    var y := ord[k];
    assert y in Elems(ord);
    forall e | e in e0 && e.to == y
      ensures e.from in Elems(st.res)
    {
      PrecedesIndex(ord, e.from, y);
      IndexOfDistinct(ord, k);
      var a := IndexOf(ord, e.from);
      assert ord[a] in st.res;
    }
    assert NoIncoming(st.edges, y);
  }

  /** A drained state has emitted exactly the schedulable nodes, whichever nodes were picked. */
  lemma FinalSchedulable(e0: seq<Edge>, cap: nat, st: State)
    requires Inv(e0, cap, st) && st.starting == {}
    ensures Elems(st.res) == Schedulable(e0)
  {
    EmittedSchedulable(e0, st.res);
    forall x | x in Schedulable(e0)
      ensures x in Elems(st.res)
    {
      if x !in st.res {
        var ord :| IsSchedulePrefix(ord, e0) && x in ord;
        var k := FirstOutside(ord, Elems(st.res), IndexOf(ord, x));
        FirstUnemittedReady(e0, cap, st, ord, k);
        assert false;
      }
    }
  }

  /** A drained state with no edge left has emitted a topological order. */
  lemma FinalOk(e0: seq<Edge>, cap: nat, st: State)
    requires Inv(e0, cap, st) && st.starting == {} && st.edges == []
    ensures IsTopoOrder(st.res, e0)
  {
    forall x | x in Nodes(e0) && x !in st.res
      ensures x in Ready(e0, st.edges, st.res)
    {
    }
    assert Elems(st.res) == Nodes(e0);
    forall e | e in e0
      ensures Precedes(st.res, e.from, e.to)
    {
      assert e.to in Nodes(e0);
      var i := IndexOf(st.res, e.to);
      assert e.from in st.res[..i];
      var j :| 0 <= j < i && st.res[..i][j] == e.from;
      assert st.res[j] == e.from && st.res[i] == e.to;
    }
  }

  /**
   A drained state with edges left proves the graph has no topological order:
   the remaining edges contain a closed walk.
   */
  lemma FinalCycle(e0: seq<Edge>, cap: nat, st: State)
    requires Inv(e0, cap, st) && st.starting == {} && st.edges != []
    ensures !Sortable(e0)
    ensures exists path :: IsCycle(e0, path)
  {
    forall x | x in Sources(st.edges)
      ensures x in Targets(st.edges)
    {
      var e :| e in st.edges && e.from == x;
      assert e in e0;
      assert x in Nodes(e0);
      assert x !in Ready(e0, st.edges, st.res);
      var e' :| e' in st.edges && e'.to == x;
    }
    PredecessorClosedNotSortable(e0, st.edges);
    var path := FedWithinHasCycle(e0, st.edges);
  }

  /**
   There are never more ready nodes than edges: each ready node is the source
   of a remaining edge, or else the target of a retired one.
   */
  lemma ReadyBound(e0: seq<Edge>, edges: seq<Edge>, res: seq<nat>)
    requires edges == Unretired(e0, Elems(res))
    ensures |Ready(e0, edges, res)| <= |e0|
  {
    var retired := Retired(e0, Elems(res));
    var ready := Ready(e0, edges, res);
    forall x | x in ready
      ensures x in Sources(edges) + Targets(retired)
    {
      if x in Sources(e0) {
        var e :| e in e0 && e.from == x;
        assert e in edges;
      } else {
        var e :| e in e0 && e.to == x;
        assert e !in edges;
        assert e in retired;
      }
    }
    SourcesBound(edges);
    TargetsBound(retired);
    SubsetCard(ready, Sources(edges) + Targets(retired));
  }

  /**
   Within the loop only the output push can overflow: the nodes an iteration
   frees always fit the starting set, which is sized like the edge list.
   */
  lemma OnlyOutputOverflows(e0: seq<Edge>, cap: nat, st: State, n: nat)
    requires Inv(e0, cap, st) && n in st.starting
    ensures Step(st, n, cap).Err? <==> |st.res| >= cap
  {
    var res' := st.res + [n];
    StepReady(e0, cap, st, n);
    UnretiredTwice(e0, Elems(st.res), {n});
    assert Elems(res') == Elems(st.res) + {n};
    ReadyBound(e0, Unretired(st.edges, {n}), res');
  }

  /** An iteration never overflows while every node of the graph fits the capacity. */
  lemma StepFits(e0: seq<Edge>, cap: nat, st: State, n: nat)
    requires Inv(e0, cap, st) && n in st.starting
    requires |Nodes(e0)| <= cap
    ensures Step(st, n, cap).Ok?
  {
    if Step(st, n, cap).Err? {
      StepErrBound(e0, cap, st, n);
    }
  }

  /**
   A graph has a topological order exactly when it contains no closed walk.
   Running the loop with room for every node decides which: it either
   retires every edge or leaves edges that contain a closed walk.
   */
  lemma SortableIffNoCycle(edges: seq<Edge>)
    ensures Sortable(edges) <==> !exists path :: IsCycle(edges, path)
  {
    if path :| IsCycle(edges, path) {
      CycleNotSortable(edges, path);
    }
    var cap := 2 * |edges|;
    NodesBound(edges);
    InitInv(edges, cap);
    var st := State(Sources(edges) - Targets(edges), edges, []);
    while st.starting != {}
      invariant Inv(edges, cap, st)
      decreases |st.starting| + |st.edges|
    {
      var n :| n in st.starting;
      StepFits(edges, cap, st, n);
      StepInv(edges, cap, st, n);
      st := Step(st, n, cap).value;
    }
    if st.edges == [] {
      FinalOk(edges, cap, st);
    } else {
      FinalCycle(edges, cap, st);
    }
  }

  /**
   Sorts the graph, consuming it. Whatever starting node each iteration picks,
   a success is a topological order, a cycle report means no topological
   order exists, and an overflow means the graph has more nodes than the
   capacity. So the sort succeeds exactly on acyclic graphs whose nodes fit.
   The outcome does not depend on the picks: the sort overflows exactly when
   more nodes are schedulable than the capacity holds, and reports a cycle
   exactly when the graph is cyclic and its schedulable nodes fit.
   */
  method IntoTopoSorted(g: Graph) returns (r: Result<seq<nat>>)
    requires g.Valid()
    ensures r.Ok? ==> IsTopoOrder(r.value, g.edges) && |r.value| <= g.cap
    ensures r.Err? && r.error == Cycle ==> !Sortable(g.edges)
    ensures r.Err? && r.error == Cycle ==> exists path :: IsCycle(g.edges, path)
    ensures r.Err? && r.error == OverCapacity ==> |Nodes(g.edges)| > g.cap
    ensures r.Ok? <==> Sortable(g.edges) && |Nodes(g.edges)| <= g.cap
    ensures Sortable(g.edges) && |Nodes(g.edges)| > g.cap ==> r == Err(OverCapacity)
    ensures r == Err(OverCapacity) <==> |Schedulable(g.edges)| > g.cap
    ensures r == Err(Cycle) <==> !Sortable(g.edges) && |Schedulable(g.edges)| <= g.cap
  {
    var seeded := SeedStartingNodes(g.edges, g.cap);
    var st := State(seeded.value, g.edges, []);
    InitInv(g.edges, g.cap);
    while st.starting != {}
      invariant Inv(g.edges, g.cap, st)
      decreases |st.starting| + |st.edges|
    {
      var n :| n in st.starting;
      var next := Step(st, n, g.cap);
      if next.Err? {
        StepErrBound(g.edges, g.cap, st, n);
        return Err(OverCapacity);
      }
      StepInv(g.edges, g.cap, st, n);
      st := next.value;
    }
    FinalSchedulable(g.edges, g.cap, st);
    DistinctCard(st.res);
    if st.edges == [] {
      FinalOk(g.edges, g.cap, st);
      r := Ok(st.res);
    } else {
      FinalCycle(g.edges, g.cap, st);
      r := Err(Cycle);
    }
  }

  /**
   A capacity of twice the edge count always covers the nodes, since each edge
   brings at most two; with it the sort fails only on cyclic graphs.
   */
  method SortWithNodeBound(g: Graph) returns (r: Result<seq<nat>>)
    requires g.Valid() && 2 * |g.edges| <= g.cap
    ensures r.Ok? <==> Sortable(g.edges)
    ensures r.Ok? ==> IsTopoOrder(r.value, g.edges)
    ensures r.Err? ==> r.error == Cycle
  {
    NodesBound(g.edges);
    r := IntoTopoSorted(g);
  }
}

=== FILE: order.dfy ===
/**
 What a topological order of an edge-only graph is, independently of any
 algorithm: every node exactly once, every edge's source before its target.
 A graph is sortable when such an order exists; a closed walk rules it out.
 */
module Order {
  import opened Types
  import opened Seqs

  /** `u` occurs at an earlier position of `ord` than `v`. */
  ghost predicate Precedes(ord: seq<nat>, u: nat, v: nat)
  {
    exists i, j :: 0 <= i < j < |ord| && ord[i] == u && ord[j] == v
  }

  /** `ord` lists each node of `edges` exactly once, sources before targets. */
  ghost predicate IsTopoOrder(ord: seq<nat>, edges: seq<Edge>)
  {
    && NoDup(ord)
    && Elems(ord) == Nodes(edges)
    && forall e :: e in edges ==> Precedes(ord, e.from, e.to)
  }

  /** Some topological order exists: the graph is acyclic. */
  ghost predicate Sortable(edges: seq<Edge>)
  {
    exists ord :: IsTopoOrder(ord, edges)
  }

  /** `path` is a closed walk along edges of `edges`. */
  ghost predicate IsCycle(edges: seq<Edge>, path: seq<nat>)
  {
    && |path| >= 2
    && path[0] == path[|path| - 1]
    && forall i :: 0 <= i < |path| - 1 ==> Edge(path[i], path[i + 1]) in edges
  }

  /** In an order without duplicates, precedence is a comparison of positions. */
  lemma PrecedesIndex(ord: seq<nat>, u: nat, v: nat)
    requires NoDup(ord) && Precedes(ord, u, v)
    ensures u in ord && v in ord && IndexOf(ord, u) < IndexOf(ord, v)
  {
    var i, j :| 0 <= i < j < |ord| && ord[i] == u && ord[j] == v;
    IndexOfDistinct(ord, i);
    IndexOfDistinct(ord, j);
  }

  /** Two positions in order witness precedence. */
  lemma PrecedesAt(ord: seq<nat>, i: nat, j: nat)
    requires i < j < |ord|
    ensures Precedes(ord, ord[i], ord[j])
  {
  }

  /** Along a walk, positions in a topological order strictly increase. */
  lemma {:induction false} WalkAscends(edges: seq<Edge>, ord: seq<nat>, path: seq<nat>, k: nat)
    requires IsTopoOrder(ord, edges)
    requires 1 <= k < |path|
    requires forall i :: 0 <= i < |path| - 1 ==> Edge(path[i], path[i + 1]) in edges
    ensures path[0] in ord && path[k] in ord
    ensures IndexOf(ord, path[0]) < IndexOf(ord, path[k])
    decreases k
  {
    var e := Edge(path[k - 1], path[k]);
    assert e in edges;
    PrecedesIndex(ord, e.from, e.to);
    if k > 1 {
      WalkAscends(edges, ord, path, k - 1);
    }
  }

  /** A graph with a closed walk has no topological order. */
  lemma CycleNotSortable(edges: seq<Edge>, path: seq<nat>)
    requires IsCycle(edges, path)
    ensures !Sortable(edges)
  {
    if ord :| IsTopoOrder(ord, edges) {
      WalkAscends(edges, ord, path, |path| - 1);
    }
  }

  /** Every source of an edge of `sub` is also the target of an edge of `sub`. */
  ghost predicate FedWithin(sub: seq<Edge>)
  {
    Sources(sub) <= Targets(sub)
  }

  /**
   If every edge of a non-empty part `sub` of the graph has its source fed by
   another edge of `sub`, the graph has no topological order: no source of
   `sub` can come first.
   */
  lemma PredecessorClosedNotSortable(edges: seq<Edge>, sub: seq<Edge>)
    requires forall e :: e in sub ==> e in edges
    requires sub != []
    requires FedWithin(sub)
    ensures !Sortable(edges)
  {
    assert sub[0] in sub;
    if ord :| IsTopoOrder(ord, edges) {
      forall e | e in sub
        ensures Ascends(ord, e)
      {
        SourceEarlier(edges, ord, e);
      }
      NoEarlySource(sub, ord, |ord|);
      assert false;
    }
  }

  /** Both ends of `e` are placed, its source strictly before its target. */
  ghost predicate Ascends(ord: seq<nat>, e: Edge)
  {
    e.from in ord && e.to in ord && IndexOf(ord, e.from) < IndexOf(ord, e.to)
  }

  /** In a topological order every edge ascends. */
  lemma SourceEarlier(edges: seq<Edge>, ord: seq<nat>, e: Edge)
    requires IsTopoOrder(ord, edges) && e in edges
    ensures Ascends(ord, e)
  {
    PrecedesIndex(ord, e.from, e.to);
  }

  /** No node among the first `k` of the order is a source of an edge of `sub`. */
  lemma {:induction false} NoEarlySource(sub: seq<Edge>, ord: seq<nat>, k: nat)
    requires FedWithin(sub)
    requires forall e :: e in sub ==> Ascends(ord, e)
    ensures forall e :: e in sub ==> e.from in ord && IndexOf(ord, e.from) >= k
    decreases k
  {
    if k > 0 {
      NoEarlySource(sub, ord, k - 1);
      forall e | e in sub
        ensures e.from in ord && IndexOf(ord, e.from) >= k
      {
        assert e.from in Sources(sub);
        var e' :| e' in sub && e'.to == e.from;
        assert Ascends(ord, e') && Ascends(ord, e);
      }
    } else {
      forall e | e in sub
        ensures e.from in ord
      {
        assert Ascends(ord, e);
      }
    }
  }

  /**
   A walk of `n` steps backwards along edges of `sub`, starting from a source
   of `sub`: each node is reached by an edge from the next one.
   */
  lemma {:induction false} WalkBackwards(sub: seq<Edge>, x: nat, n: nat) returns (p: seq<nat>)
    requires FedWithin(sub) && x in Sources(sub)
    ensures |p| == n + 1 && p[0] == x
    ensures forall k :: 0 <= k < |p| ==> p[k] in Sources(sub)
    ensures forall k :: 0 <= k < n ==> Edge(p[k + 1], p[k]) in sub
    decreases n
  {
    if n == 0 {
      p := [x];
    } else {
      var q := WalkBackwards(sub, x, n - 1);
      assert q[n - 1] in Targets(sub);
      var e :| e in sub && e.to == q[n - 1];
      p := q + [e.from];
      assert Edge(p[n], p[n - 1]) == e;
    }
  }

  /** A sequence longer than the set holding its values repeats a value. */
  lemma HasRepeat(p: seq<nat>, s: set<nat>)
    requires Elems(p) <= s && |p| > |s|
    ensures exists i, j :: 0 <= i < j < |p| && p[i] == p[j]
  {
    if NoDup(p) {
      DistinctCard(p);
      SubsetCard(Elems(p), s);
    }
  }

  /**
   A non-empty set of edges whose sources are all fed from inside it contains
   a closed walk: walking backwards must revisit a node.
   */
  lemma FedWithinHasCycle(edges: seq<Edge>, sub: seq<Edge>) returns (path: seq<nat>)
    requires forall e :: e in sub ==> e in edges
    requires sub != []
    requires FedWithin(sub)
    ensures IsCycle(edges, path)
  {
    assert sub[0] in sub;
    var p := WalkBackwards(sub, sub[0].from, |Sources(sub)|);
    assert Elems(p) <= Sources(sub);
    HasRepeat(p, Sources(sub));
    var i, j :| 0 <= i < j < |p| && p[i] == p[j];
    path := seq(j - i + 1, k requires 0 <= k <= j - i => p[j - k]);
    forall k | 0 <= k < |path| - 1
      ensures Edge(path[k], path[k + 1]) in edges
    {
      var m := j - k - 1;
      assert Edge(p[m + 1], p[m]) in sub;
    }
  }

  /**
   `ord` could open a topological order: it lists distinct nodes of the graph,
   and every edge into a listed node has its source listed earlier.
   */
  ghost predicate IsSchedulePrefix(ord: seq<nat>, edges: seq<Edge>)
  {
    && NoDup(ord)
    && Elems(ord) <= Nodes(edges)
    && forall e :: e in edges && e.to in ord ==> Precedes(ord, e.from, e.to)
  }

  /**
   The nodes some schedule prefix lists: the nodes that can be placed without
   first placing a node of a cycle.
   */
  ghost function Schedulable(edges: seq<Edge>): (s: set<nat>)
    ensures s <= Nodes(edges)
  {
    set x | x in Nodes(edges) && exists ord :: IsSchedulePrefix(ord, edges) && x in ord
  }

  /** A topological order is a schedule prefix, so an acyclic graph has every node schedulable. */
  lemma SortableAllSchedulable(edges: seq<Edge>)
    requires Sortable(edges)
    ensures Schedulable(edges) == Nodes(edges)
  {
    var ord :| IsTopoOrder(ord, edges);
    assert IsSchedulePrefix(ord, edges);
    forall x | x in Nodes(edges)
      ensures x in Schedulable(edges)
    {
      assert x in Elems(ord);
    }
  }

  /** Walking back along edges from a listed node stays inside a schedule prefix, moving earlier. */
  lemma {:induction false} WalkBack(edges: seq<Edge>, ord: seq<nat>, path: seq<nat>, k: nat)
    requires IsSchedulePrefix(ord, edges)
    requires k < |path| && path[k] in ord
    requires forall i :: 0 <= i < |path| - 1 ==> Edge(path[i], path[i + 1]) in edges
    ensures path[0] in ord && IndexOf(ord, path[0]) <= IndexOf(ord, path[k])
    ensures k > 0 ==> IndexOf(ord, path[0]) < IndexOf(ord, path[k])
    decreases k
  {
    if k > 0 {
      var e := Edge(path[k - 1], path[k]);
      assert e in edges && e.to in ord;
      PrecedesIndex(ord, e.from, e.to);
      WalkBack(edges, ord, path, k - 1);
    }
  }

  /** No node of a closed walk is schedulable. */
  lemma CycleNotSchedulable(edges: seq<Edge>, path: seq<nat>, k: nat)
    requires IsCycle(edges, path) && k < |path|
    ensures path[k] !in Schedulable(edges)
  {
    if path[k] in Schedulable(edges) {
      var ord :| IsSchedulePrefix(ord, edges) && path[k] in ord;
      WalkBack(edges, ord, path, k);
      WalkBack(edges, ord, path, |path| - 1);
      assert false;
    }
  }

  /**
   If the graph contains a walk through every node, each node once, that walk
   is the only topological order.
   */
  lemma HamiltonianPathForcesOrder(edges: seq<Edge>, path: seq<nat>, ord: seq<nat>)
    requires NoDup(path) && Elems(path) == Nodes(edges)
    requires forall i :: 0 <= i < |path| - 1 ==> Edge(path[i], path[i + 1]) in edges
    requires IsTopoOrder(ord, edges)
    ensures ord == path
  {
    DistinctCard(path);
    DistinctCard(ord);
    assert |ord| == |path|;
    forall i | 0 <= i < |path|
      ensures ord[i] == path[i]
    {
      PositionFromBelow(edges, path, ord, i);
      PositionFromAbove(edges, path, ord, i);
      assert IndexOf(ord, path[i]) == i;
    }
  }

  /** The `i`-th node of the walk sits at position `i` or later. */
  lemma {:induction false} PositionFromBelow(edges: seq<Edge>, path: seq<nat>, ord: seq<nat>, i: nat)
    requires Elems(path) == Nodes(edges)
    requires forall k :: 0 <= k < |path| - 1 ==> Edge(path[k], path[k + 1]) in edges
    requires IsTopoOrder(ord, edges)
    requires i < |path|
    ensures path[i] in ord && IndexOf(ord, path[i]) >= i
    decreases i
  {
    assert path[i] in Elems(path);
    if i > 0 {
      PositionFromBelow(edges, path, ord, i - 1);
      assert Edge(path[i - 1], path[i]) in edges;
      PrecedesIndex(ord, path[i - 1], path[i]);
    }
  }

  /** The `i`-th node of the walk sits at least `|path| - 1 - i` positions before the end. */
  lemma {:induction false} PositionFromAbove(edges: seq<Edge>, path: seq<nat>, ord: seq<nat>, i: nat)
    requires Elems(path) == Nodes(edges) && |ord| == |path|
    requires forall k :: 0 <= k < |path| - 1 ==> Edge(path[k], path[k + 1]) in edges
    requires IsTopoOrder(ord, edges)
    requires i < |path|
    ensures path[i] in ord && IndexOf(ord, path[i]) <= i
    decreases |path| - i
  {
    assert path[i] in Elems(path);
    if i < |path| - 1 {
      PositionFromAbove(edges, path, ord, i + 1);
      assert Edge(path[i], path[i + 1]) in edges;
      PrecedesIndex(ord, path[i], path[i + 1]);
    }
  }
}

=== FILE: seqs.dfy ===
/**
 Facts about sequences of node identifiers used as ordered collections:
 their element sets, absence of duplicates, and positions.
 */
module Seqs {

  /** The set of values a sequence holds. */
  function Elems(xs: seq<nat>): set<nat>
  {
    set x | x in xs
  }

  /** No value occurs twice. */
  predicate NoDup(xs: seq<nat>)
  {
    forall i, j :: 0 <= i < j < |xs| ==> xs[i] != xs[j]
  }

  /** The position of a value that occurs in the sequence: its first occurrence. */
  function IndexOf(xs: seq<nat>, x: nat): (i: nat)
    requires x in xs
    ensures i < |xs| && xs[i] == x
    ensures forall j :: 0 <= j < i ==> xs[j] != x
  {
    if xs[0] == x then 0 else 1 + IndexOf(xs[1..], x)
  }

  /** In a sequence without duplicates, the only position holding `xs[i]` is `i`. */
  lemma IndexOfDistinct(xs: seq<nat>, i: nat)
    requires NoDup(xs) && i < |xs|
    ensures IndexOf(xs, xs[i]) == i
  {
  }

  /** Taking the elements of a sequence and then of the next value. */
  lemma ElemsCons(x: nat, xs: seq<nat>)
    ensures Elems([x] + xs) == {x} + Elems(xs)
  {
    assert forall y :: y in [x] + xs <==> y == x || y in xs;
  }

  /** A sequence holds at most as many distinct values as it is long. */
  lemma {:induction false} ElemsBound(xs: seq<nat>)
    ensures |Elems(xs)| <= |xs|
  {
    if xs != [] {
      ElemsBound(xs[1..]);
      assert xs == [xs[0]] + xs[1..];
      ElemsCons(xs[0], xs[1..]);
    }
  }

  /** A sequence without duplicates holds exactly as many distinct values as it is long. */
  lemma {:induction false} DistinctCard(xs: seq<nat>)
    requires NoDup(xs)
    ensures |Elems(xs)| == |xs|
  {
    if xs != [] {
      DistinctCard(xs[1..]);
      assert xs == [xs[0]] + xs[1..];
      ElemsCons(xs[0], xs[1..]);
      assert xs[0] !in Elems(xs[1..]);
    }
  }

  /** The first position, at or before `i`, whose value lies outside `s`. */
  lemma {:induction false} FirstOutside(xs: seq<nat>, s: set<nat>, i: nat) returns (k: nat)
    requires i < |xs| && xs[i] !in s
    ensures k <= i && xs[k] !in s
    ensures forall j :: 0 <= j < k ==> xs[j] in s
    decreases i
  {
    if j :| 0 <= j < i && xs[j] !in s {
      k := FirstOutside(xs, s, j);
    } else {
      k := i;
    }
  }

  /** A subset is no larger than its superset. */
  lemma SubsetCard(a: set<nat>, b: set<nat>)
    requires a <= b
    ensures |a| <= |b|
  {
    assert b == a + (b - a);
    assert a * (b - a) == {};
  }
}

=== FILE: storage.dfy ===
/**
 The fixed-capacity storage the sort works in, reduced to its observable
 behaviour: a set that refuses a new element once it holds `cap` of them, and
 the per-iteration flag buffer with the order-preserving retain it drives.
 */
module Storage {
  import opened Types
  import opened Seqs

  /**
   Inserting into a set bounded by `cap`: a value already present is accepted
   without using capacity; a new value is refused once the set is full.
   */
  function BoundedInsert(s: set<nat>, x: nat, cap: nat): (r: Result<set<nat>>)
    ensures r.Ok? <==> x in s || |s| < cap
    ensures r.Ok? ==> r.value == s + {x}
    ensures r.Err? ==> r.error == OverCapacity
  {
    if x in s then Ok(s) else if |s| < cap then Ok(s + {x}) else Err(OverCapacity)
  }

  /**
   Inserting the values of `xs` one after another, stopping at the first
   refusal. The order of the insertions does not matter for the outcome:
   it fails exactly when all the values together would not fit.
   */
  function InsertEach(s: set<nat>, xs: seq<nat>, cap: nat): (r: Result<set<nat>>)
    requires |s| <= cap
    ensures r.Ok? <==> |s + Elems(xs)| <= cap
    ensures r.Ok? ==> r.value == s + Elems(xs)
    ensures r.Err? ==> r.error == OverCapacity
    decreases |xs|
  {
    if xs == [] then
      assert s + Elems(xs) == s;
      Ok(s)
    else
      assert xs == [xs[0]] + xs[1..];
      ElemsCons(xs[0], xs[1..]);
      match BoundedInsert(s, xs[0], cap)
      case Err(e) =>
        SubsetCard(s + {xs[0]}, s + Elems(xs));
        Err(e)
      case Ok(s') =>
        assert s' + Elems(xs[1..]) == s + Elems(xs);
        InsertEach(s', xs[1..], cap)
  }

  /**
   The flag buffer of one iteration: `cap` slots, default false, slot `i` set
   exactly when edge `i` leaves `n`. Slots beyond the edges stay false.
   */
  function RetirementFlags(edges: seq<Edge>, n: nat, cap: nat): (flags: seq<bool>)
    requires |edges| <= cap
    ensures |flags| == cap
    ensures forall i :: 0 <= i < |edges| ==> (flags[i] <==> edges[i].from == n)
    ensures forall i :: |edges| <= i < cap ==> !flags[i]
  {
    seq(cap, i requires 0 <= i < cap => i < |edges| && edges[i].from == n)
  }

  /**
   Keeps the edges whose flag is unset, in their order, pairing the k-th edge
   with the k-th flag. There are at least as many flags as edges, so the flags
   never run out.
   */
  function RetainUnflagged(edges: seq<Edge>, flags: seq<bool>): (r: seq<Edge>)
    requires |flags| >= |edges|
    ensures |r| <= |edges|
    ensures forall e :: e in r ==> e in edges
    decreases |edges|
  {
    if edges == [] then []
    else (if flags[0] then [] else [edges[0]]) + RetainUnflagged(edges[1..], flags[1..])
  }
}

=== FILE: types.dfy ===
/**
 The vocabulary of the edge-only graph: the two error kinds, the result of a
 fallible operation, a directed edge, and the nodes an edge sequence mentions.
 Node identifiers are unbounded naturals; the machine width is not modelled.
 */
module Types {

  /** The two ways an operation can fail. */
  datatype Error = Cycle | OverCapacity

  /** The outcome of a fallible operation. */
  datatype Result<T> = Ok(value: T) | Err(error: Error)

  /** A directed dependency: `from` must be placed before `to`. */
  datatype Edge = Edge(from: nat, to: nat)

  /** Builds an edge from a (source, destination) pair; the pair is recovered unchanged. */
  function EdgeFromPair(p: (nat, nat)): (e: Edge)
    ensures (e.from, e.to) == p
    ensures EdgeToPair(e) == p
  {
    Edge(p.0, p.1)
  }

  /** The pair an edge stands for. */
  function EdgeToPair(e: Edge): (nat, nat)
  {
    (e.from, e.to)
  }

  /** Every node that is the source of some edge. */
  function Sources(edges: seq<Edge>): set<nat>
  {
    set e | e in edges :: e.from
  }

  /** Every node that is the destination of some edge. */
  function Targets(edges: seq<Edge>): set<nat>
  {
    set e | e in edges :: e.to
  }

  /** The nodes of an edge-only graph: a node exists only by occurring in an edge. */
  function Nodes(edges: seq<Edge>): set<nat>
  {
    Sources(edges) + Targets(edges)
  }

  /** Graphs holding the same edges, in whatever order, have the same nodes. */
  lemma SameEdgesSameNodes(a: seq<Edge>, b: seq<Edge>)
    requires forall e :: e in a <==> e in b
    ensures Nodes(a) == Nodes(b)
  {
    forall x | x in Nodes(a) ensures x in Nodes(b) {
      if x in Sources(a) {
        var e :| e in a && e.from == x;
        assert e in b;
      } else {
        var e :| e in a && e.to == x;
        assert e in b;
      }
    }
    forall x | x in Nodes(b) ensures x in Nodes(a) {
      if x in Sources(b) {
        var e :| e in b && e.from == x;
        assert e in a;
      } else {
        var e :| e in b && e.to == x;
        assert e in a;
      }
    }
  }

  /** No edge of `edges` ends in `x`. */
  predicate NoIncoming(edges: seq<Edge>, x: nat)
  {
    forall e :: e in edges ==> e.to != x
  }

  /** There are at most as many distinct sources as there are edges. */
  lemma {:induction false} SourcesBound(edges: seq<Edge>)
    ensures |Sources(edges)| <= |edges|
  {
    if edges != [] {
      SourcesBound(edges[1..]);
      assert edges == [edges[0]] + edges[1..];
      assert Sources(edges) == {edges[0].from} + Sources(edges[1..]);
    }
  }

  /** There are at most as many distinct targets as there are edges. */
  lemma {:induction false} TargetsBound(edges: seq<Edge>)
    ensures |Targets(edges)| <= |edges|
  {
    if edges != [] {
      TargetsBound(edges[1..]);
      assert edges == [edges[0]] + edges[1..];
      assert Targets(edges) == {edges[0].to} + Targets(edges[1..]);
    }
  }

  /** Each edge contributes at most two nodes. */
  lemma NodesBound(edges: seq<Edge>)
    ensures |Nodes(edges)| <= 2 * |edges|
  {
    SourcesBound(edges);
    TargetsBound(edges);
  }
}
